=== FILE: README.md ===
# A verified model of lab0-c's string queue

`queue.c` keeps a queue of owned C strings in a singly linked list of
`list_ele_t` elements. A `queue_t` header caches `head`, `tail` and `size`.
The operations are:

- `q_new`: create an empty queue.
- `q_insert_head` and `q_insert_tail`: insert a copy of a string at either end.
- `q_remove_head`: remove the first element and copy its string into a caller
  buffer, truncating it to fit.
- `q_size`: return the cached count.
- `q_reverse`: reverse the list in place by relinking.
- `q_sort`: sort the list in place by exchanging strings between elements.

The model treats memory as a value:

- `Heap.Heap` is a finite map from addresses to `Cell(value, next)`. A
  pointer is `Null` or `At(addr)`.
- The header is `Queue.Header(head, tail, size)`.
- A `queue_t *` that may be NULL is an `Option<Header>`.

An operation that reads or writes elements takes the heap, and returns the
heap after the call when it changes it. `QNew` takes only the allocation
outcome and returns the handle. `InsertHead` and `InsertTail` return the
heap, the handle and the boolean result; `RemoveHead` returns these and the
bytes written to the caller's buffer. `Size` returns the count
alone. `Reverse` returns the heap and the handle, since `q_reverse` returns
nothing. `Sort` returns only the heap, since `q_sort` changes only the
strings held by the elements. The queue's contents are tied to this pointer
structure by a chain of addresses `xs`:

- `Heap.IsChain(h, p, xs)` holds when walking `next` links from `p`
  visits exactly `xs` and then reaches NULL.
- `Queue.Valid(h, q, xs)` is the queue invariant. It adds that `size` is
  `|xs|` and that `tail` is the last element of `xs` when there is one.
- `Heap.Contents(h, xs)` is the sequence of strings along the chain.

An empty queue places no constraint on `tail`. This is because
`q_remove_head` never clears it: after the last element is removed, `tail`
still names the freed element. It is harmless only because `q_insert_tail`
follows `tail` only when `size > 0`.

`malloc` becomes a parameter of the operations. `Alloc` is either
`OutOfMemory` or a fresh address, and a boolean says whether the string's
allocation succeeds. `strcmp` becomes `CString.Strcmp`, the sign of a
lexicographic comparison. `increase_size` and `decrease_size` are
`Queue.IncreaseSize` and `Queue.DecreaseSize`; they are folded into the
insertions and the removal.

`q_sort` is an exchange sort that swaps the `value` pointers of two elements
and never relinks them (queue.c:249-261). `q_remove_head` never assigns
`tail` (queue.c:181-187).

## Model

| member | source | states |
|---|---|---|
| `Queue.Smaller` | queue.c:10-13 | the result is one of the two arguments and is no greater than either |
| `Queue.CopyStrAndAttach` | queue.c:25-40 | it fails exactly when the element is NULL or the string allocation fails; otherwise the element holds `s` and keeps its link |
| `Queue.IncreaseSize` | queue.c:15-18 | `size` grows by one; `head` and `tail` stay |
| `Queue.DecreaseSize` | queue.c:20-23 | `size` drops by one; `head` and `tail` stay |
| `Queue.CreateElement` | queue.c:42-52 | it fails exactly when `malloc` fails; otherwise it yields an unused address holding an element with a NULL string and a NULL link |
| `Queue.QNew` | queue.c:60-73 | it returns NULL exactly when allocation fails; otherwise `head` and `tail` are NULL and the queue is valid and empty in every heap |
| `Queue.InsertHead` | queue.c:101-126 | it succeeds exactly when the queue is non-NULL and both allocations succeed; on failure heap and header are unchanged; on success one fresh element holding `s` links to the old head, becomes `head`, becomes `tail` iff the queue was empty, and `size` grows by one |
| `Queue.InsertHeadValid` | queue.c:101-126 | on a valid queue a successful head insertion gives a valid queue whose contents are `[s]` followed by the old contents |
| `Queue.InsertTail` | queue.c:135-159 | same failure conditions as head insertion; on success the old tail (only if `size > 0`) links to one fresh element holding `s`, which becomes `tail`, becomes `head` iff the queue was empty, and `size` grows by one |
| `Queue.InsertTailValid` | queue.c:135-159 | on a valid queue a successful tail insertion gives a valid queue whose contents are the old contents followed by `s` |
| `Queue.RemoveHead` | queue.c:169-190 | it fails, changing nothing and copying nothing, exactly on a NULL queue, `size == 0` or a NULL head; on success the head element is freed, its successor becomes `head`, `tail` is untouched, and `size` drops by one; with a buffer it writes a truncated, terminated copy of the removed string |
| `Queue.RemoveHeadValid` | queue.c:174-189 | on a valid non-empty queue removal succeeds, the queue stays valid with contents `old[1..]`, and the buffer gets a prefix of `old[0]` plus a terminator: all of `old[0]` when it fits, otherwise exactly `bufsize` bytes |
| `Queue.CopyOut` | queue.c:175-179 | the bytes written are a prefix of the value followed by NUL, at most `bufsize` in all, and the whole value when it is shorter than `bufsize` |
| `Queue.CopyLen` | queue.c:176 | the intended copy length is at most the string length and below `bufsize`, and equals one of the two bounds |
| `Queue.ToInt` | queue.c:176 | the conversion of an unsigned value to `int` lands in the 32-bit range, agrees with the value modulo 2^32, and keeps every value up to `INT_MAX` |
| `Queue.CopyLenAsWritten` | queue.c:176 | the copy length as the code computes it lies in the 32-bit `int` range and is at most the narrowed string length |
| `Queue.CopyLenAsWrittenNegativeForMidBuffer` | queue.c:176-178 | for every buffer of more than 2^31 and at most 2^32 bytes the length as written is negative, whatever the string |
| `Queue.CopyLenAsWrittenMidBufferWitness` | queue.c:176-178 | with `bufsize = 2^31 + 1` and a 3-character string the length as written is -2^31 while the intended one is 3 |
| `Queue.CopyLenAsWrittenNegativeForLongString` | queue.c:176-178 | for every string of more than `INT_MAX` and fewer than 2^32 characters the length as written is negative, whatever the buffer |
| `Queue.CopyLenAsWrittenShortensLargeBuffer` | queue.c:176 | with `bufsize = 2^32 + 10` and a 16-character string the length as written is 9 while the intended one is 16 |
| `Queue.CopyLenAsWrittenZeroBuffer` | queue.c:176-178 | with `bufsize = 0` the length as written is negative, and -1 for any string shorter than 2^31 |
| `Queue.CopyLenAsWrittenDropsLargeBuffer` | queue.c:176 | with `bufsize = 2^32 + 1` and a 3-character string, the copy length as written is 0 while the intended one is 3 |
| `Queue.CopyLenAsWrittenAgreesBelowIntMax` | queue.c:176 | when `bufsize` is at most 2^31 and the string is shorter than 2^31, the narrowing to `int` changes nothing |
| `Queue.Size` | queue.c:196-199 | 0 for a NULL queue, never negative, and otherwise the cached `size` |
| `Queue.SizeCountsChain` | queue.c:196-199 | for a valid queue the cached size equals the length of any chain walked from `head` |
| `Queue.DrainReadsContents` | queue.c:169-190 | removing every element with a large enough buffer reads back exactly the contents in head-to-tail order; the queue ends with a NULL head and size 0, while `tail` still holds its old value |
| `QueueReverse.Reverse` | queue.c:208-233 | a NULL or empty queue is unchanged; otherwise the old last element becomes `head` and the old head becomes `tail`; the result is valid over the reversed chain, with reversed contents and the same size; no element is allocated, freed or given another string |
| `QueueReverse.TurnedChain` | queue.c:216-232 | once every link is turned around, the heap holds the chain from the old last element back to the old head, with the strings reversed |
| `QueueReverse.ReverseTwice` | queue.c:208-233 | reversing twice restores the heap and the header exactly, including the head and tail element identities |
| `QueueSort.Sort` | queue.c:240-262 | a NULL, empty or one-element queue is unchanged; otherwise the same header stays valid over the same chain; the contents become a non-decreasing permutation of the old contents; a sorted queue keeps its contents; links and the set of elements are unchanged |
| `QueueSort.PlaceLeast` | queue.c:250-260 | one pass of the inner loop keeps the strings a permutation and places the least remaining string at the outer position |
| `QueueSort.CompareExchange` | queue.c:253-257 | afterwards the two elements hold the same two strings in `strcmp` order; links and every other element are untouched |
| `QueueSort.SortedPermutationUnique` | queue.c:240-262 | two sorted arrangements of the same strings are equal, so the sorted contents are determined by the input |
| `CString.Strcmp` | queue.c:253 | the sign of `strcmp` is in -1..1 and is zero exactly for equal strings |
| `CString.StrcmpNegativeIsLexLess` | queue.c:253 | a negative `strcmp` is exactly the lexicographic order: a proper prefix, or a smaller character at the first difference |
| `CString.StrcmpAntisymmetric` | queue.c:253 | swapping the arguments negates the result |
| `CString.LeTransitive` | queue.c:253 | the order `strcmp(a, b) <= 0` is transitive |
| `QueueScenario.InsertSortReverseRemove` | queue.c:101-262 | after tail-inserting "banana" and "apple" and head-inserting "cherry", the contents are [cherry, banana, apple]; sorting gives [apple, banana, cherry]; reversing gives [cherry, banana, apple]; removing into a 4-byte buffer copies "che" plus NUL and leaves size 2 |

## Findings

| source | as written | input that shows it | evidently intended | confidence | as-written member | corrected member |
|---|---|---|---|---|---|---|
| queue.c:176 | `bufsize - 1` (a `size_t`) and `strlen` are narrowed to `int` before `smaller` picks the copy length | `bufsize = 2^31 + 1` with the value "abc": the narrowed length is -2^31, so `strncpy` gets a count near 2^64 and `sp[str_sz]` writes before the buffer; every `bufsize` in 2^31 + 1 .. 2^32 gives a negative length; `bufsize = 2^32 + 1` gives 0, so an empty string is copied although the value fits, and `bufsize = 2^32 + 10` copies only 9 characters of a 16-character value; a value of 2^31 to 2^32 - 1 characters gives a negative length whatever the buffer, so even a 16-byte buffer is written outside of | copy `min(bufsize - 1, strlen(value))` characters | low, not executed; needs a buffer or a string over 2 GiB and assumes the usual wrap-around for the implementation-defined conversion | `Queue.CopyLenAsWritten` (with `Queue.CopyLenAsWrittenNegativeForMidBuffer`, `Queue.CopyLenAsWrittenMidBufferWitness`, `Queue.CopyLenAsWrittenNegativeForLongString`, `Queue.CopyLenAsWrittenShortensLargeBuffer`, `Queue.CopyLenAsWrittenZeroBuffer`, `Queue.CopyLenAsWrittenDropsLargeBuffer`) | `Queue.CopyLen` |

`Queue.CopyLenAsWritten` computes the length as the code does, wrapping
modulo 2^64 for `size_t` and modulo 2^32 for `int`. `Queue.RemoveHead` uses
the corrected `Queue.CopyLen`.
`Queue.CopyLenAsWrittenAgreesBelowIntMax` shows that the two agree for every
buffer and string below 2 GiB.

## Left out

- `q_free` (queue.c:76-92) and every `free`: releasing memory is not
  modelled. A freed element simply leaves the heap map.
- The `malloc` of the `queue_t` header is a boolean parameter of `QNew`. The
  `malloc`s of elements and strings are parameters of the insertions. The
  allocator is trusted to return unused addresses.
- The `strlen`/`strncpy` byte mechanics are not modelled. A string is the
  sequence of its characters before the terminator, and the stored copy is
  that same sequence.
- `CString.Strcmp` models only the sign that `strcmp` promises, comparing
  characters by code point. This is unsigned-byte order for byte strings.
  Embedded NUL characters are not modelled.
- InsertHead: does not model `int` overflow of `size` past `INT_MAX`; the count is unbounded.
- InsertTail: does not model `int` overflow of `size` past `INT_MAX`; the count is unbounded.
- RemoveHead: requires `bufsize >= 1` whenever a buffer is given. With
  `bufsize == 0` the source computes a copy length of -1
  (`Queue.CopyLenAsWrittenZeroBuffer`), so `strncpy` receives `SIZE_MAX` as
  its count and pads far past the end of the buffer.
- RemoveHead: uses the intended `Queue.CopyLen`, not the as-written
  `Queue.CopyLenAsWritten`, so it departs from the code whenever
  `bufsize - 1` or the string's length exceeds `INT_MAX`: the code then
  copies a shorter prefix or nothing, or writes outside the buffer.
- QueueSort.Sort: no stability is claimed. The exchange sort can reorder
  elements with equal strings, and only their values are observable here.
- `harness.h` and `queue.h` are not part of this model. `list_ele_t` and
  `queue_t` are rebuilt from their uses in queue.c.
- Concurrency: the code has none.

=== FILE: cstring.dfy ===
/**
  C strings as the queue sees them. A string is the sequence of its characters
  before the terminator; `strcmp` is a pure lexicographic comparison and the
  bounded copy of `q_remove_head` is a truncation followed by a terminator.
 */
module CString {

  /** The terminator written after a copied string. */
  const NUL: char := 0 as char

  /**
    `strcmp` reduced to its sign: negative, zero or positive as `a` sorts
    before, equal to or after `b` in character-by-character order, a proper
    prefix sorting first.
   */
  function Strcmp(a: string, b: string): (r: int)
    ensures -1 <= r <= 1
    ensures r == 0 <==> a == b
    decreases |a|
  {
    if |a| == 0 then (if |b| == 0 then 0 else -1)
    else if |b| == 0 then 1
    else if a[0] < b[0] then -1
    else if a[0] > b[0] then 1
    else
      var r := Strcmp(a[1..], b[1..]);
      assert a == [a[0]] + a[1..] && b == [b[0]] + b[1..];
      r
  }

  /**
    The textbook lexicographic order, stated independently of `Strcmp`: `a` is
    a proper prefix of `b`, or the first position where they differ holds a
    smaller character in `a`.
   */
  ghost predicate LexLess(a: string, b: string) {
    || (|a| < |b| && a == b[..|a|])
    || (exists k :: 0 <= k < |a| && k < |b| && a[..k] == b[..k] && a[k] < b[k])
  }

  /** A negative `strcmp` is exactly the lexicographic order. */
  lemma {:induction false} StrcmpNegativeIsLexLess(a: string, b: string)
    ensures Strcmp(a, b) < 0 <==> LexLess(a, b)
    decreases |a|
  {
    if |a| > 0 && |b| > 0 {
      if a[0] == b[0] {
        StrcmpNegativeIsLexLess(a[1..], b[1..]);
        if LexLess(a[1..], b[1..]) {
          if |a[1..]| < |b[1..]| && a[1..] == b[1..][..|a[1..]|] {
            assert a == b[..|a|];
          } else {
            var k :| 0 <= k < |a[1..]| && k < |b[1..]| && a[1..][..k] == b[1..][..k] && a[1..][k] < b[1..][k];
            assert a[..k + 1] == [a[0]] + a[1..][..k];
            assert b[..k + 1] == [b[0]] + b[1..][..k];
            assert a[k + 1] < b[k + 1];
          }
        }
        if LexLess(a, b) {
          if |a| < |b| && a == b[..|a|] {
            assert a[1..] == b[1..][..|a[1..]|];
          } else {
            var k :| 0 <= k < |a| && k < |b| && a[..k] == b[..k] && a[k] < b[k];
            assert k > 0;
            assert a[1..][..k - 1] == a[..k][1..];
            assert b[1..][..k - 1] == b[..k][1..];
            assert a[1..][k - 1] < b[1..][k - 1];
          }
        }
      } else if a[0] < b[0] {
        assert a[..0] == b[..0];
      }
    } else if |a| == 0 && |b| > 0 {
      assert a == b[..0];
    }
  }

  /** `a` may precede `b` in a sorted queue: `strcmp(a, b) <= 0`. */
  predicate Le(a: string, b: string) {
    Strcmp(a, b) <= 0
  }

  /** Every string precedes every later one. */
  predicate Sorted(s: seq<string>) {
    forall i, j :: 0 <= i < j < |s| ==> Le(s[i], s[j])
  }

  /** Swapping the arguments of `strcmp` flips the sign of its result. */
  lemma {:induction false} StrcmpAntisymmetric(a: string, b: string)
    ensures Strcmp(b, a) == -Strcmp(a, b)
    decreases |a|
  {
    if |a| > 0 && |b| > 0 && a[0] == b[0] {
      StrcmpAntisymmetric(a[1..], b[1..]);
    }
  }

  /** The order is total: of any two strings, one precedes the other. */
  lemma LeTotal(a: string, b: string)
    ensures Le(a, b) || Le(b, a)
  {
    StrcmpAntisymmetric(a, b);
  }

  /** The order is transitive. */
  lemma {:induction false} LeTransitive(a: string, b: string, c: string)
    requires Le(a, b) && Le(b, c)
    ensures Le(a, c)
    decreases |a|
  {
    if |a| > 0 && |b| > 0 && |c| > 0 && a[0] == b[0] && b[0] == c[0] {
      LeTransitive(a[1..], b[1..], c[1..]);
    }
  }
}

=== FILE: heap.dfy ===
/**
  The memory the queue lives in, as a value: a finite map from addresses to
  list elements (`list_ele_t`). A chain is the sequence of addresses met by
  walking `next` links from a pointer until NULL.
 */
module Heap {
  import opened Options

  /** A pointer to a list element: NULL or an address. */
  datatype Ptr = Null | At(addr: nat)

  /**
    A list element: its owned string (`value`, NULL until a copy is attached)
    and the link to its successor.
   */
  datatype Cell = Cell(value: Option<string>, next: Ptr)

  type Heap = map<nat, Cell>

  /** The pointer to position `i` of the chain `xs`, NULL once past its end. */
  function PtrTo(xs: seq<nat>, i: nat): Ptr {
    if i < |xs| then At(xs[i]) else Null
  }

  /** The pointer to the first address of `xs`, NULL when `xs` is empty. */
  function First(xs: seq<nat>): Ptr {
    PtrTo(xs, 0)
  }

  /** What the element at position `i` of a chain must link to. */
  function Succ(xs: seq<nat>, i: nat): Ptr
    requires i < |xs|
  {
    PtrTo(xs, i + 1)
  }

  /** Every address of `xs` is allocated and holds a string. */
  ghost predicate Holds(h: Heap, xs: seq<nat>) {
    forall i :: 0 <= i < |xs| ==> xs[i] in h && h[xs[i]].value.Some?
  }

  /**
    Walking `next` links from `p` visits exactly the addresses `xs`, in order,
    and then reaches NULL; every element visited holds a string.
   */
  ghost predicate IsChain(h: Heap, p: Ptr, xs: seq<nat>) {
    && p == First(xs)
    && Holds(h, xs)
    && (forall i, j {:trigger xs[i], xs[j]} :: 0 <= i && j == i + 1 && j < |xs| ==> h[xs[i]].next == At(xs[j]))
    && (|xs| > 0 ==> h[xs[|xs| - 1]].next == Null)
  }

  /** In a chain, element `i` links to element `i + 1`, or to NULL when it is the last. */
  lemma ChainNext(h: Heap, p: Ptr, xs: seq<nat>, i: nat)
    requires IsChain(h, p, xs) && i < |xs|
    ensures h[xs[i]].next == Succ(xs, i)
  {
  }

  /** The link condition of `IsChain`, stated one position at a time. */
  lemma ChainFromLinks(h: Heap, p: Ptr, xs: seq<nat>)
    requires p == First(xs) && Holds(h, xs)
    requires forall i :: 0 <= i < |xs| ==> h[xs[i]].next == Succ(xs, i)
    ensures IsChain(h, p, xs)
  {
    forall i, j | 0 <= i && j == i + 1 && j < |xs|
      ensures h[xs[i]].next == At(xs[j])
    {
      assert h[xs[i]].next == Succ(xs, i);
    }
    if |xs| > 0 {
      assert h[xs[|xs| - 1]].next == Succ(xs, |xs| - 1);
    }
  }

  /** The strings held along `xs`, in order. */
  function Contents(h: Heap, xs: seq<nat>): (vs: seq<string>)
    requires Holds(h, xs)
    ensures |vs| == |xs|
    ensures forall i :: 0 <= i < |xs| ==> Some(vs[i]) == h[xs[i]].value
  {
    seq(|xs|, i requires 0 <= i < |xs| => h[xs[i]].value.value)
  }

  /** A chain that ends in NULL has no cycle: no address is visited twice. */
  lemma ChainDistinct(h: Heap, p: Ptr, xs: seq<nat>)
    requires IsChain(h, p, xs)
    ensures forall i, j :: 0 <= i < j < |xs| ==> xs[i] != xs[j]
  {
    forall i, j | 0 <= i < j < |xs|
      ensures xs[i] != xs[j]
    {
      ChainDistinctAt(h, p, xs, i, j);
    }
  }

  lemma {:induction false} ChainDistinctAt(h: Heap, p: Ptr, xs: seq<nat>, i: nat, j: nat)
    requires IsChain(h, p, xs)
    requires i < j < |xs|
    ensures xs[i] != xs[j]
    decreases |xs| - j
  {
    if j + 1 == |xs| {
      assert h[xs[j]].next == Null;
      assert h[xs[i]].next == At(xs[i + 1]);
    } else {
      ChainDistinctAt(h, p, xs, i + 1, j + 1);
      assert h[xs[i]].next == At(xs[i + 1]);
      assert h[xs[j]].next == At(xs[j + 1]);
    }
  }

  /** The heap determines the chain: two chains from the same pointer are equal. */
  lemma ChainUnique(h: Heap, p: Ptr, xs: seq<nat>, ys: seq<nat>)
    requires IsChain(h, p, xs) && IsChain(h, p, ys)
    ensures xs == ys
  {
    if |xs| <= |ys| {
      ChainPrefix(h, p, xs, ys, 0);
    } else {
      ChainPrefix(h, p, ys, xs, 0);
    }
  }

  /** From position `k` on, a chain no longer than another agrees with it and ends with it. */
  lemma {:induction false} ChainPrefix(h: Heap, p: Ptr, xs: seq<nat>, ys: seq<nat>, k: nat)
    requires IsChain(h, p, xs) && IsChain(h, p, ys)
    requires |xs| <= |ys|
    requires k <= |xs|
    requires xs[..k] == ys[..k]
    ensures xs == ys
    decreases |xs| - k
  {
    if k == 0 && |xs| == 0 {
      assert First(ys) == Null;
    } else if k == 0 {
      assert xs[0] == ys[0];
      ChainPrefix(h, p, xs, ys, 1);
    } else if k == |xs| {
      assert h[xs[k - 1]].next == Null;
      assert ys[k - 1] == xs[k - 1];
      assert |ys| == k;
      assert xs == xs[..k] && ys == ys[..k];
    } else {
      assert ys[k - 1] == xs[k - 1];
      assert h[xs[k - 1]].next == At(xs[k]);
      assert xs[..k + 1] == xs[..k] + [xs[k]];
      assert ys[..k + 1] == ys[..k] + [ys[k]];
      ChainPrefix(h, p, xs, ys, k + 1);
    }
  }
}

=== FILE: options.dfy ===
/** The conventional Some/None datatype, standing in for a C pointer that may be NULL. */
module Options {

  datatype Option<+T> = None | Some(value: T)
}

=== FILE: queue.dfy ===
/**
  The queue of owned strings (`queue_t`) and its constant-time operations:
  creation, insertion at either end, removal at the head with a bounded copy
  out, and the size query. A queue handle that may be NULL is an
  `Option<Header>`. The heap is a value: the insertions and the removal take
  it and return it after the call, together with the handle and the boolean
  result (and, for the removal, the bytes copied out); `QNew` takes only the
  allocation outcome and `Size` only the handle.
 */
module Queue {
  import opened Options
  import opened Heap
  import opened CString

  /** `queue_t`: the first and last elements and the cached element count. */
  datatype Header = Header(head: Ptr, tail: Ptr, size: int)

  /** The outcome of one `malloc` of a list element. */
  datatype Alloc = OutOfMemory | Block(addr: nat)

  /** `malloc` never hands out an address that is in use. */
  predicate Fresh(h: Heap, alloc: Alloc) {
    alloc.Block? ==> alloc.addr !in h
  }

  /** Heap and handle after an insertion, and the boolean it returned. */
  datatype Step = Step(heap: Heap, q: Option<Header>, ok: bool)

  /**
    Heap and handle after `q_remove_head`, the boolean it returned, and the
    bytes it wrote into the caller's buffer (`None` when nothing was written).
   */
  datatype Removal = Removal(heap: Heap, q: Option<Header>, ok: bool, copied: Option<string>)

  /**
    The queue invariant: walking from `head` visits the chain `xs`, `size`
    counts it, and `tail` is its last element whenever it has one. An empty
    queue says nothing about `tail`, which `q_remove_head` leaves pointing at
    the element it freed.
   */
  ghost predicate Valid(h: Heap, q: Header, xs: seq<nat>) {
    && IsChain(h, q.head, xs)
    && q.size == |xs|
    && (|xs| > 0 ==> q.tail == At(xs[|xs| - 1]))
  }

  /** `h'` is `h` with one new element at `a` holding `s` and linking to `next`. */
  ghost predicate AddsElement(h: Heap, h': Heap, a: nat, s: string, next: Ptr) {
    && a !in h
    && h'.Keys == h.Keys + {a}
    && h'[a] == Cell(Some(s), next)
    && (forall b :: b in h && b != a ==> h'[b] == h[b])
  }

  // ---- Utility zone ----

  /** `smaller`: the lesser of two ints. */
  function Smaller(a: int, b: int): (r: int)
    ensures r <= a && r <= b
    ensures r == a || r == b
  {
    if a < b then a else b
  }

  /** `increase_size`: one more element; the head and tail pointers stay. */
  function IncreaseSize(q: Header): (r: Header)
    ensures r.head == q.head && r.tail == q.tail && r.size == q.size + 1
  {
    q.(size := q.size + 1)
  }

  /** `decrease_size`: one element fewer; the head and tail pointers stay. */
  function DecreaseSize(q: Header): (r: Header)
    ensures r.head == q.head && r.tail == q.tail && r.size == q.size - 1
  {
    q.(size := q.size - 1)
  }

  /**
    `create_element`: a new element with no string and no successor, at an
    address not in use, or NULL when `malloc` fails.
   */
  function CreateElement(h: Heap, alloc: Alloc): (r: Option<(nat, Cell)>)
    requires Fresh(h, alloc)
    ensures r.Some? <==> alloc.Block?
    ensures r.Some? ==> r.value.0 !in h && r.value.1 == Cell(None, Null)
  {
    match alloc
    case OutOfMemory => None
    case Block(a) => Some((a, Cell(None, Null)))
  }

  /**
    `copy_str_and_attach`: gives the element its own copy of `s`. Fails on a
    NULL element or when the string's `malloc` fails.
   */
  function CopyStrAndAttach(e: Option<Cell>, s: string, strAlloc: bool): (r: Option<Cell>)
    ensures r.Some? <==> e.Some? && strAlloc
    ensures r.Some? ==> r.value.value == Some(s) && r.value.next == e.value.next
  {
    if e.None? then None
    else if !strAlloc then None
    else Some(e.value.(value := Some(s)))
  }

  // ---- Bounded copy out of q_remove_head ----

  const SIZE_T_MODULUS: nat := 0x1_0000_0000_0000_0000
  const INT_MODULUS: nat := 0x1_0000_0000
  const INT_MAX: nat := 0x7fff_ffff

  /** Conversion of an unsigned value to a 32-bit `int`, wrapping modulo 2^32. */
  function ToInt(x: nat): (r: int)
    ensures -(INT_MAX + 1) <= r <= INT_MAX
    ensures (x - r) % INT_MODULUS == 0
    ensures x <= INT_MAX ==> r == x
  {
    var m := x % INT_MODULUS;
    if m <= INT_MAX then m else m - INT_MODULUS
  }

  /**
    The copy length as `q_remove_head` computes it: `bufsize - 1` in
    `size_t` arithmetic and `strlen` are both narrowed to `int` before
    `smaller` picks the lesser.
   */
  function CopyLenAsWritten(bufsize: nat, len: nat): (r: int)
    requires bufsize < SIZE_T_MODULUS && len < SIZE_T_MODULUS
    ensures -(INT_MAX + 1) <= r <= INT_MAX
    ensures r <= ToInt(len)
  {
    Smaller(ToInt((bufsize + SIZE_T_MODULUS - 1) % SIZE_T_MODULUS), ToInt(len))
  }

  /** The copy length intended: as much of the string as fits before the terminator. */
  function CopyLen(bufsize: nat, len: nat): (n: nat)
    requires bufsize >= 1
    ensures n <= len && n < bufsize
    ensures n == len || n == bufsize - 1
  {
    Smaller(bufsize - 1, len)
  }

  /** A buffer larger than 4 GiB receives an empty string, although the value would fit. */
  lemma CopyLenAsWrittenDropsLargeBuffer()
    ensures CopyLenAsWritten(0x1_0000_0001, 3) == 0
    ensures CopyLen(0x1_0000_0001, 3) == 3
  {
  }

  /**
    A buffer of more than 2 GiB and at most 4 GiB gives a negative length,
    whatever the string: `strncpy` then receives a count near 2^64 and the
    terminator lands before the buffer.
   */
  lemma CopyLenAsWrittenNegativeForMidBuffer(bufsize: nat, len: nat)
    requires INT_MAX + 2 <= bufsize <= INT_MODULUS && len < SIZE_T_MODULUS
    ensures CopyLenAsWritten(bufsize, len) < 0
  {
  }

  /** The smallest such buffer with a 3-character string: the length is -2^31. */
  lemma CopyLenAsWrittenMidBufferWitness()
    ensures CopyLenAsWritten(0x8000_0001, 3) == -0x8000_0000
    ensures CopyLen(0x8000_0001, 3) == 3
  {
  }

  /**
    A string of 2 GiB or more, but under 4 GiB, gives a negative length
    whatever the buffer, so even a small buffer is written outside of.
   */
  lemma CopyLenAsWrittenNegativeForLongString(bufsize: nat, len: nat)
    requires bufsize < SIZE_T_MODULUS && INT_MAX < len < INT_MODULUS
    ensures CopyLenAsWritten(bufsize, len) < 0
  {
  }

  /** A buffer of 2^32 + 10 bytes receives only 9 characters of a 16-character string. */
  lemma CopyLenAsWrittenShortensLargeBuffer()
    ensures CopyLenAsWritten(0x1_0000_000A, 16) == 9
    ensures CopyLen(0x1_0000_000A, 16) == 16
  {
  }

  /**
    A zero-sized buffer gives a negative length, not a refusal to copy: -1
    for any string shorter than 2 GiB.
   */
  lemma CopyLenAsWrittenZeroBuffer(len: nat)
    requires len < SIZE_T_MODULUS
    ensures CopyLenAsWritten(0, len) < 0
    ensures len <= INT_MAX ==> CopyLenAsWritten(0, len) == -1
  {
  }

  /** Below 2 GiB for both the buffer and the string, the narrowing is harmless. */
  lemma CopyLenAsWrittenAgreesBelowIntMax(bufsize: nat, len: nat)
    requires 1 <= bufsize <= INT_MAX + 1 && len <= INT_MAX
    ensures CopyLenAsWritten(bufsize, len) == CopyLen(bufsize, len)
  {
  }

  /**
    `buf` is what a bounded copy of `v` into `bufsize` bytes should leave: a
    prefix of `v` followed by the terminator, all of `v` when it fits, and
    otherwise exactly `bufsize` bytes.
   */
  ghost predicate IsTruncatedCopy(buf: string, v: string, bufsize: nat) {
    && 0 < |buf| <= bufsize
    && |buf| - 1 <= |v|
    && buf == v[..|buf| - 1] + [NUL]
    && (|buf| - 1 == |v| || |buf| == bufsize)
  }

  /** The bytes written into the caller's buffer for the value `v`. */
  function CopyOut(v: string, bufsize: nat): (buf: string)
    requires bufsize >= 1
    ensures IsTruncatedCopy(buf, v, bufsize)
    ensures |v| < bufsize ==> buf == v + [NUL]
  {
    v[..CopyLen(bufsize, |v|)] + [NUL]
  }

  // ---- Queue operations ----

  /** `q_new`: an empty queue, or NULL when `malloc` of the header fails. */
  function QNew(alloc: bool): (q: Option<Header>)
    ensures q.Some? <==> alloc
    ensures q.Some? ==> q.value.head == Null && q.value.tail == Null
    ensures q.Some? ==> forall h: Heap :: Valid(h, q.value, [])
  {
    if !alloc then None else Some(Header(Null, Null, 0))
  }

  /**
    `q_insert_head`: a new element holding a copy of `s` becomes the head.
    Fails, changing nothing, on a NULL queue or when either `malloc` fails.
   */
  function InsertHead(h: Heap, q: Option<Header>, s: string, nodeAlloc: Alloc, strAlloc: bool): (r: Step)
    requires Fresh(h, nodeAlloc)
    ensures r.ok <==> q.Some? && nodeAlloc.Block? && strAlloc
    ensures !r.ok ==> r.heap == h && r.q == q
    ensures r.ok ==> r.q.Some? && AddsElement(h, r.heap, nodeAlloc.addr, s, q.value.head)
    ensures r.ok ==> r.q.value.head == At(nodeAlloc.addr) && r.q.value.size == q.value.size + 1
    ensures r.ok ==> r.q.value.tail == (if q.value.size == 0 then At(nodeAlloc.addr) else q.value.tail)
  {
    if q.None? then Step(h, q, false)
    else
      match CreateElement(h, nodeAlloc)
      case None => Step(h, q, false)
      case Some((a, e)) =>
        match CopyStrAndAttach(Some(e), s, strAlloc)
        case None => Step(h, q, false)
        case Some(e1) =>
          var e2 := if q.value.head != Null then e1.(next := q.value.head) else e1;
          var hd := IncreaseSize(q.value).(head := At(a));
          var hd' := if hd.size == 1 then hd.(tail := At(a)) else hd;
          Step(h[a := e2], Some(hd'), true)
  }

  /**
    `q_insert_tail`: a new element holding a copy of `s` is linked after the
    cached tail (only when the queue is non-empty) and becomes the tail, and
    also the head when the queue was empty. Fails as `InsertHead` does.
   */
  function InsertTail(h: Heap, q: Option<Header>, s: string, nodeAlloc: Alloc, strAlloc: bool): (r: Step)
    requires Fresh(h, nodeAlloc)
    requires q.Some? && q.value.size > 0 ==> q.value.tail.At? && q.value.tail.addr in h
    ensures r.ok <==> q.Some? && nodeAlloc.Block? && strAlloc
    ensures !r.ok ==> r.heap == h && r.q == q
    ensures r.ok ==> r.q.Some? && r.q.value.tail == At(nodeAlloc.addr) && r.q.value.size == q.value.size + 1
    ensures r.ok ==> r.q.value.head == (if q.value.size == 0 then At(nodeAlloc.addr) else q.value.head)
    ensures r.ok && q.value.size <= 0 ==> AddsElement(h, r.heap, nodeAlloc.addr, s, Null)
    ensures r.ok && q.value.size > 0 ==>
      var t := q.value.tail.addr;
      AddsElement(h[t := h[t].(next := At(nodeAlloc.addr))], r.heap, nodeAlloc.addr, s, Null)
  {
    if q.None? then Step(h, q, false)
    else
      match CreateElement(h, nodeAlloc)
      case None => Step(h, q, false)
      case Some((a, e)) =>
        match CopyStrAndAttach(Some(e), s, strAlloc)
        case None => Step(h, q, false)
        case Some(e1) =>
          var h1 := if q.value.size > 0 then h[q.value.tail.addr := h[q.value.tail.addr].(next := At(a))] else h;
          var hd := IncreaseSize(q.value.(tail := At(a)));
          var hd' := if hd.size == 1 then hd.(head := At(a)) else hd;
          Step(h1[a := e1], Some(hd'), true)
  }

  /**
    `q_remove_head`: fails, changing nothing, on a NULL or empty queue.
    Otherwise frees the head element, makes its successor the head, counts
    one less, and leaves `tail` as it was. With a buffer (`sp`), writes the
    bounded copy of the removed string into it.
   */
  function RemoveHead(h: Heap, q: Option<Header>, sp: bool, bufsize: nat): (r: Removal)
    requires sp ==> bufsize >= 1
    requires q.Some? && q.value.size != 0 && q.value.head.At? ==>
      q.value.head.addr in h && h[q.value.head.addr].value.Some?
    ensures r.ok <==> q.Some? && q.value.size != 0 && q.value.head != Null
    ensures !r.ok ==> r.heap == h && r.q == q && r.copied == None
    ensures r.ok ==>
      var a := q.value.head.addr;
      && r.heap.Keys == h.Keys - {a}
      && (forall b :: b in r.heap ==> r.heap[b] == h[b])
      && r.q == Some(Header(h[a].next, q.value.tail, q.value.size - 1))
    ensures r.ok && sp ==> r.copied.Some? && IsTruncatedCopy(r.copied.value, h[q.value.head.addr].value.value, bufsize)
    ensures !sp ==> r.copied == None
  {
    if q.None? || q.value.size == 0 || q.value.head == Null then Removal(h, q, false, None)
    else
      var a := q.value.head.addr;
      var copied := if sp then Some(CopyOut(h[a].value.value, bufsize)) else None;
      var hd := DecreaseSize(q.value.(head := h[a].next));
      Removal(h - {a}, Some(hd), true, copied)
  }

  /** `q_size`: the cached count, and 0 for a NULL queue. */
  function Size(q: Option<Header>): (n: int)
    ensures n >= 0
    ensures q.None? ==> n == 0
    ensures q.Some? && q.value.size >= 0 ==> n == q.value.size
  {
    if q.Some? && q.value.size > 0 then q.value.size else 0
  }

  // ---- What the operations do to the queue's contents ----

  /** Head insertion on a valid queue prepends `s` and keeps the queue valid. */
  lemma InsertHeadValid(h: Heap, q: Header, xs: seq<nat>, s: string, nodeAlloc: Alloc, strAlloc: bool)
    requires Valid(h, q, xs) && Fresh(h, nodeAlloc)
    requires nodeAlloc.Block? && strAlloc
    ensures var r := InsertHead(h, Some(q), s, nodeAlloc, strAlloc);
      && r.ok
      && Valid(r.heap, r.q.value, [nodeAlloc.addr] + xs)
      && Contents(r.heap, [nodeAlloc.addr] + xs) == [s] + Contents(h, xs)
  {
    var r := InsertHead(h, Some(q), s, nodeAlloc, strAlloc);
    var ys := [nodeAlloc.addr] + xs;
    forall i | 0 <= i < |ys|
      ensures ys[i] in r.heap && r.heap[ys[i]].value.Some? && r.heap[ys[i]].next == Succ(ys, i)
    {
      if i > 0 {
        assert ys[i] == xs[i - 1];
      }
    }
    assert IsChain(r.heap, r.q.value.head, ys);
  }

  /** Tail insertion on a valid queue appends `s` and keeps the queue valid. */
  lemma InsertTailValid(h: Heap, q: Header, xs: seq<nat>, s: string, nodeAlloc: Alloc, strAlloc: bool)
    requires Valid(h, q, xs) && Fresh(h, nodeAlloc)
    requires nodeAlloc.Block? && strAlloc
    ensures var r := InsertTail(h, Some(q), s, nodeAlloc, strAlloc);
      && r.ok
      && Valid(r.heap, r.q.value, xs + [nodeAlloc.addr])
      && Contents(r.heap, xs + [nodeAlloc.addr]) == Contents(h, xs) + [s]
  {
    var r := InsertTail(h, Some(q), s, nodeAlloc, strAlloc);
    var a := nodeAlloc.addr;
    var ys := xs + [a];
    ChainDistinct(h, q.head, xs);
    forall i | 0 <= i < |ys|
      ensures ys[i] in r.heap && r.heap[ys[i]].value == (if i < |xs| then h[xs[i]].value else Some(s))
      ensures r.heap[ys[i]].next == Succ(ys, i)
    {
      if i + 1 < |xs| {
        assert ys[i] == xs[i] && xs[i] != xs[|xs| - 1];
        assert h[xs[i]].next == Succ(xs, i);
      }
    }
    assert IsChain(r.heap, r.q.value.head, ys);
  }

  /**
    Head removal on a valid non-empty queue drops the first string, keeps the
    queue valid, and copies out as much of the removed string as fits.
   */
  lemma RemoveHeadValid(h: Heap, q: Header, xs: seq<nat>, sp: bool, bufsize: nat)
    requires Valid(h, q, xs) && |xs| > 0
    requires sp ==> bufsize >= 1
    ensures var r := RemoveHead(h, Some(q), sp, bufsize);
      && r.ok
      && Valid(r.heap, r.q.value, xs[1..])
      && Contents(r.heap, xs[1..]) == Contents(h, xs)[1..]
      && (sp ==> r.copied.Some? && IsTruncatedCopy(r.copied.value, Contents(h, xs)[0], bufsize))
      && (sp && |Contents(h, xs)[0]| < bufsize ==> r.copied == Some(Contents(h, xs)[0] + [NUL]))
  {
    var r := RemoveHead(h, Some(q), sp, bufsize);
    ChainDistinct(h, q.head, xs);
    var ys := xs[1..];
    forall i | 0 <= i < |ys|
      ensures ys[i] in r.heap && r.heap[ys[i]] == h[xs[i + 1]]
    {
      assert xs[i + 1] != xs[0];
    }
    assert h[xs[0]].next == First(ys);
    assert IsChain(r.heap, r.q.value.head, ys);
  }

  /**
    The cached size of a valid queue is the length of every chain that can
    be walked from its head.
   */
  lemma SizeCountsChain(h: Heap, q: Header, xs: seq<nat>, ys: seq<nat>)
    requires Valid(h, q, xs)
    requires IsChain(h, q.head, ys)
    ensures Size(Some(q)) == |ys|
  {
    ChainUnique(h, q.head, xs, ys);
  }

  /** The string a buffer holds, without its terminator. */
  function Unterminated(buf: string): string {
    if |buf| == 0 then buf else buf[..|buf| - 1]
  }

  /**
    Removes every element of a valid queue in turn, each into a buffer of
    `bufsize` bytes; the strings read out and the final header.
   */
  ghost function Drain(h: Heap, q: Header, xs: seq<nat>, bufsize: nat): (seq<string>, Header)
    requires Valid(h, q, xs) && bufsize >= 1
    decreases |xs|
  {
    if |xs| == 0 then ([], q)
    else
      RemoveHeadValid(h, q, xs, true, bufsize);
      var r := RemoveHead(h, Some(q), true, bufsize);
      var rest := Drain(r.heap, r.q.value, xs[1..], bufsize);
      ([Unterminated(r.copied.value)] + rest.0, rest.1)
  }

  /**
    Removing every element with a buffer large enough for each string reads
    the strings in head-to-tail order and leaves an empty queue with a NULL
    head; `tail` still names the last element removed.
   */
  lemma {:induction false} DrainReadsContents(h: Heap, q: Header, xs: seq<nat>, bufsize: nat)
    requires Valid(h, q, xs) && bufsize >= 1
    requires forall i :: 0 <= i < |xs| ==> |Contents(h, xs)[i]| < bufsize
    ensures Drain(h, q, xs, bufsize).0 == Contents(h, xs)
    ensures Drain(h, q, xs, bufsize).1.head == Null && Drain(h, q, xs, bufsize).1.size == 0
    ensures Drain(h, q, xs, bufsize).1.tail == q.tail
    decreases |xs|
  {
    if |xs| > 0 {
      RemoveHeadValid(h, q, xs, true, bufsize);
      var r := RemoveHead(h, Some(q), true, bufsize);
      var vs := Contents(h, xs);
      assert r.copied == Some(vs[0] + [NUL]);
      assert Unterminated(vs[0] + [NUL]) == vs[0];
      forall i | 0 <= i < |xs[1..]|
        ensures |Contents(r.heap, xs[1..])[i]| < bufsize
      {
        assert Contents(r.heap, xs[1..])[i] == vs[i + 1];
      }
      DrainReadsContents(r.heap, r.q.value, xs[1..], bufsize);
      assert vs == [vs[0]] + vs[1..];
    }
  }
}

=== FILE: reverse.dfy ===
/**
  `q_reverse`: reverses a queue in place by turning every `next` link
  around, one element at a time, without touching any string.
 */
module QueueReverse {
  import opened Options
  import opened Heap
  import opened Queue

  /** The sequence read back to front. */
  function Rev<T>(s: seq<T>): (r: seq<T>)
    ensures |r| == |s|
  {
    seq(|s|, i requires 0 <= i < |s| => s[|s| - 1 - i])
  }

  /**
    Reverses the queue `q`, whose elements are `xs`. The old head becomes the
    tail and links to NULL, the old last element becomes the head, the chain
    now runs through the same elements back to front, and no element is
    allocated, freed or given another string. A NULL or empty queue is left
    as it is.
   */
  method Reverse(h: Heap, q: Option<Header>, ghost xs: seq<nat>) returns (h': Heap, q': Option<Header>)
    requires q.Some? ==> Valid(h, q.value, xs)
    ensures q.None? || xs == [] ==> h' == h && q' == q
    ensures q.Some? ==> q'.Some? && Valid(h', q'.value, Rev(xs))
    ensures q.Some? ==> Contents(h', Rev(xs)) == Rev(Contents(h, xs))
    ensures q.Some? && xs != [] ==>
      && q'.value.head == At(xs[|xs| - 1])
      && q'.value.tail == At(xs[0])
      && q'.value.size == q.value.size
    ensures h'.Keys == h.Keys
    ensures forall c :: c in h ==> h'[c].value == h[c].value
    ensures forall c :: c in h && c !in xs ==> h'[c] == h[c]
  {
    if q.None? || q.value.head == Null {
      return h, q;
    }
    ChainDistinct(h, q.value.head, xs);
    var hd := q.value;
    var a := hd.head.addr;
    var b := h[a].next;
    ChainNext(h, hd.head, xs, 0);
    hd := hd.(tail := At(a));
    h' := h[a := h[a].(next := Null)];
    ghost var k := 1;
    while b != Null
      invariant 1 <= k <= |xs|
      invariant a == xs[k - 1]
      invariant b == Succ(xs, k - 1)
      invariant TurnedUpTo(h, h', xs, k)
      decreases |xs| - k
    {
      TurnStep(h, h', xs, k);
      var c := h'[b.addr].next;
      h' := h'[b.addr := h'[b.addr].(next := At(a))];
      a := b.addr;
      b := c;
      k := k + 1;
    }
    q' := Some(hd.(head := At(a)));
    TurnedChain(h, h', xs);
  }

  /**
    The first `k` elements of the chain `xs` link to their predecessors (the
    first to NULL), the rest keep their links, every element keeps its
    string, and nothing outside the chain changes.
   */
  ghost predicate TurnedUpTo(h: Heap, h': Heap, xs: seq<nat>, k: nat)
    requires 0 < k <= |xs|
    requires forall j :: 0 <= j < |xs| ==> xs[j] in h
  {
    && h'.Keys == h.Keys
    && (forall c :: c in h ==> h'[c].value == h[c].value)
    && (forall c :: c in h && c !in xs ==> h'[c] == h[c])
    && h'[xs[0]].next == Null
    && (forall i, j {:trigger xs[i], xs[j]} :: 0 <= i && j == i + 1 && j < k ==> h'[xs[j]].next == At(xs[i]))
    && (forall j :: k <= j < |xs| ==> h'[xs[j]].next == h[xs[j]].next)
  }

  /** Turning the link of element `k` around extends the turned prefix by one. */
  lemma TurnStep(h: Heap, h': Heap, xs: seq<nat>, k: nat)
    requires IsChain(h, First(xs), xs)
    requires forall i, j :: 0 <= i < j < |xs| ==> xs[i] != xs[j]
    requires 1 <= k < |xs| && TurnedUpTo(h, h', xs, k)
    ensures h'[xs[k]].next == Succ(xs, k)
    ensures TurnedUpTo(h, h'[xs[k] := h'[xs[k]].(next := At(xs[k - 1]))], xs, k + 1)
  {
    ChainNext(h, First(xs), xs, k);
  }

  /**
    A heap in which the whole chain `xs` is turned around holds the chain
    read back to front, with the same strings.
   */
  lemma TurnedChain(h: Heap, h': Heap, xs: seq<nat>)
    requires Holds(h, xs) && |xs| > 0
    requires TurnedUpTo(h, h', xs, |xs|)
    ensures IsChain(h', At(xs[|xs| - 1]), Rev(xs))
    ensures Contents(h', Rev(xs)) == Rev(Contents(h, xs))
  {
    var n := |xs|;
    var ys := Rev(xs);
    forall i | 0 <= i < n
      ensures ys[i] in h' && h'[ys[i]].value.Some?
      ensures h'[ys[i]].next == Succ(ys, i)
    {
      assert ys[i] == xs[n - 1 - i];
      if i + 1 < n {
        assert ys[i + 1] == xs[n - 2 - i];
      }
    }
    ChainFromLinks(h', At(xs[n - 1]), ys);
  }

  /**
    Reversing twice restores the heap and the handle exactly: the same links,
    the same head and tail elements, the same strings.
   */
  method ReverseTwice(h: Heap, q: Option<Header>, ghost xs: seq<nat>) returns (h'': Heap, q'': Option<Header>)
    requires q.Some? ==> Valid(h, q.value, xs)
    ensures h'' == h && q'' == q
  {
    var h', q' := Reverse(h, q, xs);
    h'', q'' := Reverse(h', q', Rev(xs));
    if q.Some? {
      assert Rev(Rev(xs)) == xs;
      forall c | c in h
        ensures h''[c] == h[c]
      {
        if c in xs {
          var j :| 0 <= j < |xs| && xs[j] == c;
          ChainNext(h, q.value.head, xs, j);
          ChainNext(h'', q''.value.head, xs, j);
        }
      }
    }
  }
}

=== FILE: scenario.dfy ===
/**
  A worked run of the queue: insert "banana" and "apple" at the tail and
  "cherry" at the head, sort, reverse, then remove the head into a 4-byte
  buffer.
 */
module QueueScenario {
  import opened Options
  import opened Heap
  import opened Queue
  import opened CString
  import opened QueueReverse
  import opened QueueSort

  /** `insert_tail("banana")`, `insert_tail("apple")`, `insert_head("cherry")` on a new queue. */
  method Build() returns (h: Heap, q: Option<Header>, xs: seq<nat>)
    ensures q.Some? && Valid(h, q.value, xs)
    ensures Contents(h, xs) == ["cherry", "banana", "apple"]
    ensures Size(q) == 3
  {
    var q0 := QNew(true);
    var h0: Heap := map[];
    assert Valid(h0, q0.value, []);
    InsertTailValid(h0, q0.value, [], "banana", Block(1), true);
    var r := InsertTail(h0, q0, "banana", Block(1), true);
    assert [] + [1] == [1];
    InsertTailValid(r.heap, r.q.value, [1], "apple", Block(2), true);
    r := InsertTail(r.heap, r.q, "apple", Block(2), true);
    assert [1] + [2] == [1, 2];
    InsertHeadValid(r.heap, r.q.value, [1, 2], "cherry", Block(3), true);
    r := InsertHead(r.heap, r.q, "cherry", Block(3), true);
    assert [3] + [1, 2] == [3, 1, 2];
    h, q, xs := r.heap, r.q, [3, 1, 2];
  }

  /** Sorting the three strings puts them in alphabetical order. */
  method SortThree(h: Heap, q: Option<Header>, xs: seq<nat>) returns (h': Heap)
    requires q.Some? && Valid(h, q.value, xs)
    requires Contents(h, xs) == ["cherry", "banana", "apple"]
    ensures Valid(h', q.value, xs)
    ensures Contents(h', xs) == ["apple", "banana", "cherry"]
  {
    h' := Sort(h, q, xs);
    SortsToAlphabetical(Contents(h', xs));
  }

  /** The only sorted arrangement of the three strings is the alphabetical one. */
  lemma SortsToAlphabetical(vs: seq<string>)
    requires Sorted(vs) && multiset(vs) == multiset(["cherry", "banana", "apple"])
    ensures vs == ["apple", "banana", "cherry"]
  {
    var abc := ["apple", "banana", "cherry"];
    AlphabeticalIsSorted();
    assert multiset(abc) == multiset(["cherry", "banana", "apple"]);
    SortedPermutationUnique(vs, abc);
  }

  lemma AlphabeticalIsSorted()
    ensures Sorted(["apple", "banana", "cherry"])
  {
    var abc := ["apple", "banana", "cherry"];
    assert abc[0][0] == 'a' && abc[1][0] == 'b' && abc[2][0] == 'c';
    assert Le(abc[0], abc[1]) && Le(abc[1], abc[2]) && Le(abc[0], abc[2]);
  }

  /** The whole run, observed through the queue's contents and size. */
  method InsertSortReverseRemove() returns (inserted: seq<string>, sorted: seq<string>, reversed: seq<string>, copied: string, size: int)
    ensures inserted == ["cherry", "banana", "apple"]
    ensures sorted == ["apple", "banana", "cherry"]
    ensures reversed == ["cherry", "banana", "apple"]
    ensures copied == "che" + [NUL]
    ensures size == 2
  {
    var h, q, xs := Build();
    inserted := Contents(h, xs);
    var h1 := SortThree(h, q, xs);
    sorted := Contents(h1, xs);
    var h2, q2 := Reverse(h1, q, xs);
    reversed := Contents(h2, Rev(xs));
    RemoveHeadValid(h2, q2.value, Rev(xs), true, 4);
    var rm := RemoveHead(h2, q2, true, 4);
    copied := rm.copied.value;
    assert "cherry"[..3] == "che";
    size := Size(rm.q);
  }
}

=== FILE: sort.dfy ===
/**
  `q_sort`: an exchange sort over the list. For each element `a` in turn it
  walks every later element `b` and swaps the two strings whenever
  `strcmp(a, b) > 0`; links, the head, the tail and the count never change.
 */
module QueueSort {
  import opened Options
  import opened Heap
  import opened Queue
  import opened CString

  /** `s` with the strings at `i` and `j` exchanged. */
  function Swap(s: seq<string>, i: nat, j: nat): (r: seq<string>)
    requires i < |s| && j < |s|
    ensures |r| == |s|
    ensures multiset(r) == multiset(s)
    ensures r[i] == s[j] && r[j] == s[i]
    ensures forall k :: 0 <= k < |s| && k != i && k != j ==> r[k] == s[k]
  {
    s[i := s[j]][j := s[i]]
  }

  /** The heap with the strings of elements `x` and `y` exchanged and every link kept. */
  function SwapValues(h: Heap, x: nat, y: nat): (h': Heap)
    requires x in h && y in h
    ensures h'.Keys == h.Keys
    ensures h'[x].value == h[y].value && h'[y].value == h[x].value
    ensures forall c :: c in h ==> h'[c].next == h[c].next
    ensures forall c :: c in h && c != x && c != y ==> h'[c] == h[c]
  {
    var t := h[x].value;
    var h1 := h[x := h[x].(value := h[y].value)];
    h1[y := h1[y].(value := t)]
  }

  /** `h'` differs from `h` only in the strings held along `xs`. */
  ghost predicate SameShape(h: Heap, h': Heap, xs: seq<nat>) {
    && h'.Keys == h.Keys
    && Holds(h', xs)
    && (forall c :: c in h ==> h'[c].next == h[c].next)
    && (forall c :: c in h && c !in xs ==> h'[c] == h[c])
  }

  /** Positions before `i` hold their final strings: each precedes every later string. */
  ghost predicate Placed(vs: seq<string>, i: nat) {
    forall p, r :: 0 <= p < i && p < r < |vs| ==> Le(vs[p], vs[r])
  }

  /** The string at `i` precedes every string strictly between `i` and `j`. */
  ghost predicate LeastSoFar(vs: seq<string>, i: nat, j: nat)
    requires i < |vs|
  {
    forall t :: i < t < j && t < |vs| ==> Le(vs[i], vs[t])
  }

  /**
    `h'` holds, along the chain `xs` of `h0`, a permutation of the strings of
    `h0` and nothing else differs.
   */
  ghost predicate Permuted(h0: Heap, h': Heap, xs: seq<nat>) {
    && Holds(h0, xs)
    && SameShape(h0, h', xs)
    && multiset(Contents(h', xs)) == multiset(Contents(h0, xs))
  }

  /** Exchanging the strings of two elements of a chain exchanges them in its contents. */
  lemma SwapKeepsPermuted(h0: Heap, h: Heap, xs: seq<nat>, i: nat, j: nat)
    requires Permuted(h0, h, xs) && i < j < |xs|
    requires forall p, r :: 0 <= p < r < |xs| ==> xs[p] != xs[r]
    ensures Permuted(h0, SwapValues(h, xs[i], xs[j]), xs)
    ensures Contents(SwapValues(h, xs[i], xs[j]), xs) == Swap(Contents(h, xs), i, j)
  {
    var h' := SwapValues(h, xs[i], xs[j]);
    assert Contents(h', xs) == Swap(Contents(h, xs), i, j);
  }

  /**
    One comparison of the inner loop keeps the placed prefix placed and makes
    position `i` the least of positions `i` to `j`.
   */
  lemma ExchangeStep(vs: seq<string>, i: nat, j: nat)
    requires i < j < |vs|
    requires Placed(vs, i) && LeastSoFar(vs, i, j)
    ensures var ws := if Strcmp(vs[i], vs[j]) > 0 then Swap(vs, i, j) else vs;
      Placed(ws, i) && LeastSoFar(ws, i, j + 1)
  {
    if Strcmp(vs[i], vs[j]) > 0 {
      var ws := Swap(vs, i, j);
      LeTotal(vs[i], vs[j]);
      forall t | i < t < j + 1 && t < |ws|
        ensures Le(ws[i], ws[t])
      {
        if t < j {
          LeTransitive(vs[j], vs[i], vs[t]);
        }
      }
    }
  }

  /**
    Sorts the queue `q`, whose elements are `xs`, by exchanging strings
    between elements. Afterwards the same elements, linked the same way and
    described by the same header, hold a non-decreasing permutation of the
    strings; a sorted queue is left with its strings where they were. A NULL
    queue, an empty queue and a one-element queue are left as they are.
   */
  method Sort(h: Heap, q: Option<Header>, ghost xs: seq<nat>) returns (h': Heap)
    requires q.Some? ==> Valid(h, q.value, xs)
    ensures q.None? || |xs| <= 1 ==> h' == h
    ensures q.Some? ==> Valid(h', q.value, xs)
    ensures q.Some? ==> Sorted(Contents(h', xs))
    ensures q.Some? ==> multiset(Contents(h', xs)) == multiset(Contents(h, xs))
    ensures q.Some? && Sorted(Contents(h, xs)) ==> Contents(h', xs) == Contents(h, xs)
    ensures h'.Keys == h.Keys
    ensures forall c :: c in h ==> h'[c].next == h[c].next
    ensures forall c :: c in h && c !in xs ==> h'[c] == h[c]
  {
    if q.None? {
      return h;
    }
    if q.value.size == 1 {
      return h;
    }
    ChainDistinct(h, q.value.head, xs);
    h' := h;
    var a := q.value.head;
    ghost var i := 0;
    while a != Null
      invariant 0 <= i <= |xs|
      invariant a == PtrTo(xs, i)
      invariant Permuted(h, h', xs)
      invariant Placed(Contents(h', xs), i)
      decreases |xs| - i
    {
      h' := PlaceLeast(h, h', xs, i, a.addr);
      a := h'[a.addr].next;
      i := i + 1;
    }
    if Sorted(Contents(h, xs)) {
      SortedPermutationUnique(Contents(h', xs), Contents(h, xs));
    }
  }

  /**
    The inner loop of `q_sort` for the element `a` at position `i`: walks
    every later element and exchanges strings whenever `strcmp` puts the
    later one first, so that position `i` ends up holding its final string.
   */
  method PlaceLeast(h0: Heap, h: Heap, ghost xs: seq<nat>, ghost i: nat, a: nat) returns (h': Heap)
    requires IsChain(h0, First(xs), xs)
    requires forall p, r :: 0 <= p < r < |xs| ==> xs[p] != xs[r]
    requires i < |xs| && a == xs[i]
    requires Permuted(h0, h, xs) && Placed(Contents(h, xs), i)
    ensures Permuted(h0, h', xs) && Placed(Contents(h', xs), i + 1)
  {
    h' := h;
    var b := h'[a].next;
    ghost var j := i + 1;
    while b != Null
      invariant i < j <= |xs|
      invariant b == PtrTo(xs, j)
      invariant Permuted(h0, h', xs)
      invariant Placed(Contents(h', xs), i) && LeastSoFar(Contents(h', xs), i, j)
      decreases |xs| - j
    {
      var y := b.addr;
      assert y == xs[j];
      CompareExchangeStep(h0, h', xs, i, j, a, y);
      h' := CompareExchange(h', a, y);
      b := h'[y].next;
      j := j + 1;
    }
  }

  /** One comparison of `q_sort`: the two strings are exchanged when `strcmp` puts the second first. */
  function CompareExchange(h: Heap, x: nat, y: nat): (h': Heap)
    requires x in h && y in h && h[x].value.Some? && h[y].value.Some?
    ensures h'.Keys == h.Keys
    ensures multiset{h'[x].value, h'[y].value} == multiset{h[x].value, h[y].value}
    ensures h'[x].value.Some? && h'[y].value.Some? && Le(h'[x].value.value, h'[y].value.value)
    ensures forall c :: c in h ==> h'[c].next == h[c].next
    ensures forall c :: c in h && c != x && c != y ==> h'[c] == h[c]
  {
    LeTotal(h[x].value.value, h[y].value.value);
    if Strcmp(h[x].value.value, h[y].value.value) > 0 then SwapValues(h, x, y) else h
  }

  /**
    One comparison of the inner loop keeps the strings a permutation, the
    placed prefix placed, and makes position `i` the least of positions `i`
    to `j`.
   */
  lemma CompareExchangeStep(h0: Heap, h: Heap, xs: seq<nat>, i: nat, j: nat, x: nat, y: nat)
    requires IsChain(h0, First(xs), xs)
    requires forall p, r :: 0 <= p < r < |xs| ==> xs[p] != xs[r]
    requires i < j < |xs| && x == xs[i] && y == xs[j]
    requires Permuted(h0, h, xs) && Placed(Contents(h, xs), i) && LeastSoFar(Contents(h, xs), i, j)
    ensures var h' := CompareExchange(h, x, y);
      && Permuted(h0, h', xs)
      && Placed(Contents(h', xs), i) && LeastSoFar(Contents(h', xs), i, j + 1)
      && h'[y].next == PtrTo(xs, j + 1)
  {
    var vs := Contents(h, xs);
    ExchangeStep(vs, i, j);
    if Strcmp(vs[i], vs[j]) > 0 {
      SwapKeepsPermuted(h0, h, xs, i, j);
    }
    assert h0[xs[j]].next == Succ(xs, j);
  }

  /** Two sorted sequences holding the same strings are equal. */
  lemma {:induction false} SortedPermutationUnique(s: seq<string>, t: seq<string>)
    requires Sorted(s) && Sorted(t)
    requires multiset(s) == multiset(t)
    ensures s == t
    decreases |s|
  {
    assert |s| == |multiset(s)| == |multiset(t)| == |t|;
    if |s| > 0 {
      SameFirst(s, t);
      MultisetOfTail(s);
      MultisetOfTail(t);
      SortedTail(s);
      SortedTail(t);
      SortedPermutationUnique(s[1..], t[1..]);
      assert s == [s[0]] + s[1..] && t == [t[0]] + t[1..];
    }
  }

  /** Two non-empty sorted sequences holding the same strings start alike. */
  lemma SameFirst(s: seq<string>, t: seq<string>)
    requires Sorted(s) && Sorted(t) && |s| > 0 && |t| > 0
    requires multiset(s) == multiset(t)
    ensures s[0] == t[0]
  {
    assert s[0] in multiset(t) && t[0] in multiset(s);
    SortedFirstIsLeast(t, s[0]);
    SortedFirstIsLeast(s, t[0]);
    StrcmpAntisymmetric(s[0], t[0]);
  }

  /** The first string of a sorted sequence precedes each of its strings. */
  lemma SortedFirstIsLeast(s: seq<string>, x: string)
    requires Sorted(s) && x in multiset(s)
    ensures Le(s[0], x)
  {
    var i :| 0 <= i < |s| && s[i] == x;
    if i == 0 {
      StrcmpAntisymmetric(x, x);
    }
  }

  lemma SortedTail(s: seq<string>)
    requires Sorted(s) && |s| > 0
    ensures Sorted(s[1..])
  {
    forall i, j | 0 <= i < j < |s[1..]|
      ensures Le(s[1..][i], s[1..][j])
    {
      assert s[1..][i] == s[i + 1] && s[1..][j] == s[j + 1];
    }
  }

  lemma MultisetOfTail(s: seq<string>)
    requires |s| > 0
    ensures multiset(s[1..]) == multiset(s) - multiset{s[0]}
  {
    assert s == [s[0]] + s[1..];
  }
}
